=== FILE: README.md ===
# Gobblet client: renderer, move reader and server adapter

A Dafny model of the two pure cores of a small command-line client for a remote
Gobblet server (the game itself is played and judged on the server):

- **The text renderer** (`gobblet.py`): a piece becomes a 3-character token, a player
  becomes its name followed by the tokens of its piles, a 4x4 board becomes four
  labelled rows with separator lines and column labels, a game stacks a pile-number
  header, the two player lines aligned on the longer name and the board, and a game
  listing becomes one four-line block per game.
- **The move reader** (the parsing half of `récupérer_le_coup`): the two answers the
  player types become an origin — a pile number, or a list of coordinates when the
  answer is longer than one character — and a destination list.
- **The server adapter** (`api.py`): each of the four endpoints is a fixed decision on
  the HTTP status and the decoded JSON body: 200 returns the body or the
  `(id, plateau, joueurs)` triple, 401 and 406 raise an exception whose argument is
  the raw body text or the `message` field depending on the endpoint, any other
  status raises a bare connection error, and a truthy `gagnant` on a played move
  raises the game-over signal. The requests (method, address, credentials, body)
  are modelled as data.

Files: `wrappers.dfy` (Option, Result), `text.dfy` (Python's `join`, `split`,
`' ' * n`, `str(int)` and `int(str)` with the facts about them the rest needs),
`gobblet.dfy` (module `Gobblet`, the renderer), `move.dfy` (module `MoveInput`),
`api.dfy` (module `Api`).

Modelling choices:

- A cell or pile slot is `Option<Piece>`: the server's empty list is `None`.
- Python's list indexing is kept: a piece size of -4 to -1 picks a glyph from the end
  of the player's row, exactly as `GOBBLET_REPRÉSENTATION[joueur][taille]` does.
  Read-back lemmas speak of canonical sizes 0 to 3.
- A decoded JSON body is a `Value`; `Null` is Python's `None`. `d.get(k)` yields
  `Null` for a missing key and raises `AttributeError` on anything but an object;
  `r.json()` on a body that is not JSON raises `JSONDecodeError`.
- Truthiness of `gagnant` is Python's truthiness of a decoded JSON value.
- The game-over signal stays on the exception channel (`StopIteration(winner)`), as
  in the code; `Api.PlayMoveIsFetchUnlessWinner` states its only difference from a
  plain fetch.

Board cells are joined with the ASCII `|`; only the line between two rows uses the
box-drawing characters `───┼───┼───┼───`.

Where the code and its docstrings differ, the model follows the code:

- On status 406, `récupérer_partie` and `jouer_coup` raise `PermissionError` with the
  JSON `message` field, although their docstrings announce `RuntimeError`; only
  `lister_parties` and `débuter_partie` raise `RuntimeError` (with the raw text).

## Model

| member | source | states |
|---|---|---|
| Gobblet.FormatPiece | gobblet.py:52-65 | a token is always 3 characters with a space on each side; its middle is a space exactly when the cell is empty, otherwise the glyph of the piece's player and size from the table, a size of -4..-1 counting from the end of the player's row as Python's list indexing does |
| Gobblet.Glyph | gobblet.py:24-27 | a size 0 to 3 picks the glyph at that position of the player's row; every lookup the table admits yields one of that player's four glyphs, never a space |
| Gobblet.NegativeSizeFromEnd | gobblet.py:62-64 | a size -4 to -1 counts from the end of the row: it shows the same glyph as the canonical size four higher |
| Gobblet.GlyphsDistinct | gobblet.py:24-27 | the eight glyphs are pairwise distinct, within a player and across players |
| Gobblet.ReadFormatPiece | gobblet.py:62-65 | the token of any canonical cell reads back to that cell: no two pieces (or a piece and an empty cell) share a token |
| Gobblet.PlayerSlotAt | gobblet.py:79-84 | pile k of a player line sits at column len(name) + 2 + 4k, followed by one space unless it is the last pile |
| Gobblet.FormatPlayerLayout | gobblet.py:79-84 | `formater_un_joueur` (Gobblet.FormatPlayer): a player line is the name, ": ", then every pile token in the original order separated by single spaces; with n >= 1 piles the part after ": " is 4n - 1 characters, with none it is empty |
| Gobblet.RowLayout | gobblet.py:97-99 | a row of four cells is 17 characters: the digit 3 - i, the four tokens separated by `|`, a newline |
| Gobblet.BoardLayout | gobblet.py:97-100 | `formater_plateau` (Gobblet.FormatBoard): a 4x4 board text is 135 characters; input row i occupies the 17 characters at 34i and is labelled 3 - i; exactly one separator line follows each of the first three rows; the text ends with the column labels; cell (i, j) is at 34i + 1 + 4j |
| Gobblet.ReadFormatBoard | gobblet.py:97-100 | every canonical 4x4 board can be read back from its text: rendering loses no cell |
| Gobblet.NameWidth | gobblet.py:114 | the width is one of the two name lengths and at least both |
| Gobblet.PaddedPlayerLayout | gobblet.py:115-123 | both branches of the padding give the same line: exactly width - len(name) spaces then the player line, so ": " falls at the same columns for both players |
| Gobblet.PileColumnsAlign | gobblet.py:118-123 | the header's pile number k and the glyph of pile k in either padded player line share a column |
| Gobblet.FormatGameLayout | gobblet.py:114-125 | `formater_jeu` (Gobblet.FormatGame): a game is the header (s spaces and the pile numbers, s the longer name length), each player line padded by s - len(name) spaces (none for the longer name), a blank line, and the board text verbatim |
| Gobblet.SummaryBlock | gobblet.py:142-144 | a game's block starts with "ID : " and ends with the winner as Python prints it, `None` when there is none |
| Gobblet.FormatGameList | gobblet.py:141-148 | the listing is empty exactly when there are no games; otherwise it starts with the first game's "ID : " |
| Gobblet.GameListAppend | gobblet.py:141-148 | the listing of two consecutive runs of games is their two listings joined by a blank line: order is kept and nothing is re-sorted |
| Gobblet.GameListSingle | gobblet.py:141-148 | one game lists as its block alone: "ID : …", "Date : …", the players joined by " & ", " Gagnant : " and the winner or None |
| Gobblet.SummaryBlockLines | gobblet.py:142-144 | a game's block is exactly these four parts in order, separated by line breaks: "ID : " and the id, "Date : " and the date, "Joueurs : " and the player names joined by " & ", then " Gagnant : " and the winner as Python prints it |
| Gobblet.SummaryBlockNewlines | gobblet.py:142-144 | a block of single-line fields has exactly three line breaks (four lines) |
| Gobblet.GameListNewlines | gobblet.py:141-148 | n >= 1 games with single-line fields produce 5n - 2 line breaks: no game is dropped or merged |
| MoveInput.ParseInts | gobblet.py:176 | the list parses exactly when every segment is an integer literal, with one number per segment in order; otherwise the first rejected segment is reported |
| Text.Split | gobblet.py:176 | no piece of `s.split(',')` contains a comma, and there is always at least one piece |
| Text.SplitCount | gobblet.py:176 | `s.split(',')` has one piece more than `s` has commas |
| Text.JoinSplit | gobblet.py:176 | joining the pieces of a split with the separator gives the answer back: splitting loses nothing |
| Text.SplitJoin | gobblet.py:180 | splitting a join of comma-free pieces gives exactly those pieces back |
| Text.JoinUniformLength | gobblet.py:79-81 | `sep.join` of n parts of width w has n·w characters plus n - 1 separators |
| Text.JoinAppend | gobblet.py:141-148 | joining two non-empty lists of parts is joining each and putting one separator between |
| Text.ParseInt | gobblet.py:176-178 | `int()` succeeds exactly on an optional sign followed by one or more ASCII digits |
| Text.SignAndZeros | gobblet.py:176-178 | `int()` reads a `+` sign as nothing, a `-` sign as negation, and a leading zero as nothing |
| Text.CanonicalLiteral | gobblet.py:176-178 | a digit run without leading zero reads as the number `str` writes exactly that way; with Text.SignAndZeros this fixes the value of every accepted literal |
| Text.IntToStringRoundTrip | gobblet.py:97 | the row label `str(n)` reads back as n, contains no comma, and is one character exactly for 0 to 9 |
| MoveInput.ParseOrigin | gobblet.py:175-178 | an answer of at most one character parses exactly when it is an integer literal and becomes a pile (otherwise a ValueError naming the answer); a longer answer becomes coordinates and parses exactly when its comma-separated list does |
| MoveInput.ParseCoords | gobblet.py:180 | a parsed coordinate list has one number more than the answer has commas |
| MoveInput.ParseMove | gobblet.py:175-180 | the origin is a pile number exactly when the answer has at most one character, otherwise a list with commas + 1 numbers; the destination always has commas + 1 numbers; the move parses iff both answers do, and a bad origin is reported before the destination is looked at |
| MoveInput.MoveRoundTrip | gobblet.py:175-180 | typing a one-digit pile (or at least two coordinates) and a destination reads back exactly that move |
| MoveInput.LongPileIsSquare | gobblet.py:175-178 | a pile number written with two characters or more (10, -1) becomes the one-element coordinate list, not a pile |
| MoveInput.EmptySegmentRejected | gobblet.py:175-180 | a leading or trailing comma, or two commas in a row, leaves an empty segment that int() rejects |
| Api.Decode | api.py:39 | decoding returns exactly when the body is JSON |
| Api.Get | api.py:97-98 | `.get(key)` on an object returns the key's value, or None when the key is missing; anything else raises AttributeError |
| Api.Projection | api.py:97-98 | a 200 body yields the triple exactly when it is a JSON object, each component being that key's value or None; otherwise decoding or attribute lookup fails |
| Api.ListGames | api.py:38-45 | only a 200 returns; a 200 returns the decoded body unchanged, or raises a decoding error when the body is not JSON |
| Api.StartGame | api.py:66-75 | only a 200 returns a game state, and a 200 yields exactly the body's (id, plateau, joueurs) projection |
| Api.FetchGame | api.py:96-104 | only a 200 returns, and a 200 yields exactly the body's projection; no response ever yields RuntimeError (406 is a PermissionError) |
| Api.PlayMove | api.py:136-147 | a state is returned only on 200 with a falsy winner, and then it is exactly the body's projection; the game-over signal happens only on 200 and carries the truthy winner read from the body; a 200 whose winner cannot be read raises that reading error; never RuntimeError |
| Api.FailuresFollowTable | api.py:38-147 | on every non-200 status each endpoint raises what the server contract table gives: 401 PermissionError, 406 RuntimeError for listing and starting but PermissionError for fetching and playing, the argument from the raw text (listing, starting) or the message field (fetching, playing), and a bare connection error otherwise |
| Api.OtherStatusIsConnectionError | api.py:44-45 | any status other than 200, 401 and 406 is a connection error without message on every endpoint |
| Api.StartAndFetchAgreeOnSuccess | api.py:96-98 | starting and fetching read the same triple from a 200 response |
| Api.PlayMoveIsFetchUnlessWinner | api.py:136-147 | playing behaves exactly like fetching on every response except a 200 whose winner is readable and truthy, which ends the game with that winner even when plateau and joueurs are present; an unreadable 200 body fails alike in both |
| Api.ListGamesRequest | api.py:34-36 | listing is a GET of the base address + "parties/" with the credentials and no body |
| Api.StartGameRequest | api.py:64 | starting is a POST of the base address + "partie" with the credentials and no body |
| Api.FetchGameRequest | api.py:95 | fetching is a GET whose address is the base address followed by "partie/" and the game id |
| Api.PlayMoveRequest | api.py:130-134 | playing is a PUT of the base address + "jouer/" whose body has exactly the keys id, origine and destination, each bound to its argument unchanged |
| Api.RequestsAreDistinct | api.py:34-36 | the four requests (listing here, starting at line 64, fetching at line 95, playing at lines 130-134) differ pairwise in method or address, whatever the game id |
| Api.OriginValueRoundTrip | api.py:133 | the JSON form of an origin keeps a pile number apart from a coordinate list: the origin can be read back |

## Left out

- Network I/O: the `requests.get/post/put` calls (api.py:36, 64, 95, 130-134) are not performed; each endpoint takes the server's `Response` as a parameter.
- JSON decoding: a `Response` carries its body text and its decoded value side by side; that the value is the decoding of the text is not modelled, nor are JSON floats (numbers are integers).
- `interpréteur_de_commande` and its stray call inside `formater_les_parties` (gobblet.py:30-49, 139): argument parsing, whose result the formatting does not use.
- The `print`/`input` calls of `récupérer_le_coup` (gobblet.py:171-173): the two answers are parameters.
- `main.py`: the interactive loop and wiring.
- Unused imports (gobblet.py:19-20).
- Text.ParseInt: accepts only an optional sign and ASCII digits; Python's `int()` also strips surrounding whitespace and accepts `_` separators and non-ASCII digits.
- Gobblet.FormatPiece: requires a piece the glyph table can look up instead of modelling the `KeyError`/`IndexError` Python raises for an unknown player or a size outside -4..3.
- Gobblet.FormatGame: requires at least two players instead of modelling the `IndexError` of a shorter list.
- Gobblet.FormatGameList: takes the list under `parties['parties']` with typed fields (strings for id, date and player names, an optional winner); Python's `str()` of other JSON values, and a missing `parties` key, are not modelled.
- Api.FetchGameRequest: takes the game id as text; the address uses Python's `str()` of whatever value `id_partie` holds (api.py:95), and `str()` of a non-text JSON value is not modelled.
- The conversion of the server's `plateau` and `joueurs` values into the renderer's typed board and players is implicit in Python (duck typing) and is not modelled; the renderer takes typed data.
- Strings are sequences of Unicode code points, as Python's `len` counts them.

=== FILE: api.dfy ===
/**
  The adapter between the client and the Gobblet server. Each of the four endpoint
  functions is a fixed decision on the HTTP status of the server's response and its
  decoded JSON body; the HTTP exchange itself is a parameter (the `Response`).
 */
module Api {
  import opened Wrappers
  import MoveInput

  /** A decoded JSON document as Python holds it; `Null` is Python's `None`. */
  datatype Value =
    | Null
    | Bool(b: bool)
    | Num(n: int)
    | Str(s: string)
    | Arr(items: seq<Value>)
    | Obj(fields: map<string, Value>)

  /** Python truthiness of a decoded value: `None`, `False`, `0` and empty containers are false. */
  predicate Truthy(v: Value)
  {
    match v
    case Null => false
    case Bool(b) => b
    case Num(n) => n != 0
    case Str(s) => |s| > 0
    case Arr(items) => |items| > 0
    case Obj(fields) => |fields| > 0
  }

  /** The exceptions the endpoint functions let escape, with their argument. */
  datatype Exception =
    | PermissionError(arg: Value)
    | RuntimeError(arg: Value)
    | ConnectionError
    | StopIteration(arg: Value)
    | JSONDecodeError
    | AttributeError

  /** What a Python call does: return a value or raise an exception. */
  datatype Outcome<+T> = Return(value: T) | Raise(exception: Exception)

  /** The server's answer: status code, raw body text, and the body decoded as JSON if it is JSON. */
  datatype Response = Response(status: int, text: string, json: Option<Value>)

  /** The `(id, plateau, joueurs)` triple the game endpoints return. */
  datatype GameState = GameState(id: Value, board: Value, players: Value)

  /** Decoding the body as JSON: fails when the body is not JSON. */
  function Decode(r: Response): (o: Outcome<Value>)
    ensures o.Return? <==> r.json.Some?
  {
    match r.json
    case None => Raise(JSONDecodeError)
    case Some(v) => Return(v)
  }

  /** Looking a key up in a decoded object: `None` for a missing key; only an object has keys. */
  function Get(v: Value, key: string): (o: Outcome<Value>)
    ensures o.Return? <==> v.Obj?
    ensures o.Return? && key in v.fields ==> o.value == v.fields[key]
    ensures o.Return? && key !in v.fields ==> o.value == Null
    ensures o.Raise? ==> o.exception == AttributeError
  {
    match v
    case Obj(fields) => Return(if key in fields then fields[key] else Null)
    case _ => Raise(AttributeError)
  }

  /** The value of one key of the decoded body. */
  function BodyField(r: Response, key: string): Outcome<Value>
  {
    match Decode(r)
    case Raise(x) => Raise(x)
    case Return(v) => Get(v, key)
  }

  /** The game triple of a successful response: the body's `id`, `plateau` and `joueurs`, each possibly `None`. */
  function Projection(r: Response): (o: Outcome<GameState>)
    ensures o.Return? <==> r.json.Some? && r.json.value.Obj?
    ensures o.Return? ==> && Return(o.value.id) == BodyField(r, "id")
                          && Return(o.value.board) == BodyField(r, "plateau")
                          && Return(o.value.players) == BodyField(r, "joueurs")
    ensures o.Raise? ==> o.exception == JSONDecodeError || o.exception == AttributeError
  {
    match Decode(r)
    case Raise(x) => Raise(x)
    case Return(data) =>
      match data
      case Obj(f) =>
        Return(GameState(
          if "id" in f then f["id"] else Null,
          if "plateau" in f then f["plateau"] else Null,
          if "joueurs" in f then f["joueurs"] else Null))
      case _ => Raise(AttributeError)
  }

  /** Raise `PermissionError` or `RuntimeError` with an argument that may itself fail to compute. */
  function RaiseWith(wrap: Value -> Exception, arg: Outcome<Value>): Outcome<GameState>
  {
    match arg
    case Raise(x) => Raise(x)
    case Return(m) => Raise(wrap(m))
  }

  // ---------------------------------------------------------------------------
  // The four endpoints

  /** `lister_parties`, from the server's response on. */
  function ListGames(r: Response): (o: Outcome<Value>)
    ensures o.Return? ==> r.status == 200 && Some(o.value) == r.json
    ensures r.status == 200 && r.json.Some? ==> o == Return(r.json.value)
    ensures r.status == 200 && r.json.None? ==> o == Raise(JSONDecodeError)
  {
    if r.status == 200 then Decode(r)
    else if r.status == 401 then Raise(PermissionError(Str(r.text)))
    else if r.status == 406 then Raise(RuntimeError(Str(r.text)))
    else Raise(ConnectionError)
  }

  /** `débuter_partie`, from the server's response on. */
  function StartGame(r: Response): (o: Outcome<GameState>)
    ensures o.Return? ==> r.status == 200
    ensures r.status == 200 ==> o == Projection(r)
  {
    if r.status == 200 then Projection(r)
    else if r.status == 401 then Raise(PermissionError(Str(r.text)))
    else if r.status == 406 then Raise(RuntimeError(Str(r.text)))
    else Raise(ConnectionError)
  }

  /** `récupérer_partie`, from the server's response on. */
  function FetchGame(r: Response): (o: Outcome<GameState>)
    ensures o.Return? ==> r.status == 200
    ensures r.status == 200 ==> o == Projection(r)
    ensures !(o.Raise? && o.exception.RuntimeError?)
  {
    if r.status == 200 then Projection(r)
    else if r.status == 401 then RaiseWith(m => PermissionError(m), BodyField(r, "message"))
    else if r.status == 406 then RaiseWith(m => PermissionError(m), BodyField(r, "message"))
    else Raise(ConnectionError)
  }

  /** `jouer_coup`, from the server's response on. */
  function PlayMove(r: Response): (o: Outcome<GameState>)
    ensures o.Return? ==> r.status == 200 && BodyField(r, "gagnant").Return?
                          && !Truthy(BodyField(r, "gagnant").value)
    ensures o.Raise? && o.exception.StopIteration? ==>
              r.status == 200 && BodyField(r, "gagnant") == Return(o.exception.arg) && Truthy(o.exception.arg)
    ensures r.status == 200 && BodyField(r, "gagnant").Return? && !Truthy(BodyField(r, "gagnant").value) ==>
              o == Projection(r)
    ensures r.status == 200 && BodyField(r, "gagnant").Raise? ==> o == Raise(BodyField(r, "gagnant").exception)
    ensures !(o.Raise? && o.exception.RuntimeError?)
  {
    if r.status == 200 then
      match BodyField(r, "gagnant")
      case Raise(x) => Raise(x)
      case Return(winner) => if Truthy(winner) then Raise(StopIteration(winner)) else Projection(r)
    else if r.status == 401 then RaiseWith(m => PermissionError(m), BodyField(r, "message"))
    else if r.status == 406 then RaiseWith(m => PermissionError(m), BodyField(r, "message"))
    else Raise(ConnectionError)
  }

  // ---------------------------------------------------------------------------
  // The server contract as a table, and the endpoints checked against it

  datatype Endpoint = ListGamesCall | StartGameCall | FetchGameCall | PlayMoveCall

  /** Where the argument of the exception raised on 401 and 406 is taken from. */
  datatype MessageSource = RawText | MessageField

  function MessageSourceOf(e: Endpoint): MessageSource
  {
    match e
    case ListGamesCall => RawText
    case StartGameCall => RawText
    case FetchGameCall => MessageField
    case PlayMoveCall => MessageField
  }

  /** The exception class of a refused request (401 or 406). */
  datatype Refusal = Permission | Runtime

  /**
    401 is a `PermissionError` everywhere; 406 is a `RuntimeError` when listing or
    starting but a `PermissionError` when fetching or playing.
   */
  function RefusalOf(e: Endpoint, status: int): Refusal
  {
    if status == 406 && (e == ListGamesCall || e == StartGameCall) then Runtime else Permission
  }

  /** The exception a non-200 response must produce, read off the table. */
  function ExpectedFailure(e: Endpoint, r: Response): Exception
  {
    if r.status != 401 && r.status != 406 then ConnectionError
    else
      var msg := match MessageSourceOf(e)
                 case RawText => Return(Str(r.text))
                 case MessageField => BodyField(r, "message");
      match msg
      case Raise(x) => x
      case Return(m) =>
        match RefusalOf(e, r.status)
        case Permission => PermissionError(m)
        case Runtime => RuntimeError(m)
  }

  /** The exception an endpoint raises on a response, if any. */
  function Raised(e: Endpoint, r: Response): Option<Exception>
  {
    match e
    case ListGamesCall => (match ListGames(r) case Raise(x) => Some(x) case Return(_) => None)
    case StartGameCall => (match StartGame(r) case Raise(x) => Some(x) case Return(_) => None)
    case FetchGameCall => (match FetchGame(r) case Raise(x) => Some(x) case Return(_) => None)
    case PlayMoveCall => (match PlayMove(r) case Raise(x) => Some(x) case Return(_) => None)
  }

  /** Every endpoint fails on every non-200 status exactly as the table says. */
  lemma FailuresFollowTable(e: Endpoint, r: Response)
    requires r.status != 200
    ensures Raised(e, r) == Some(ExpectedFailure(e, r))
  {
  }

  /** A status other than 200, 401 and 406 is a bare connectivity error on every endpoint. */
  lemma OtherStatusIsConnectionError(e: Endpoint, r: Response)
    requires r.status != 200 && r.status != 401 && r.status != 406
    ensures Raised(e, r) == Some(ConnectionError)
  {
    FailuresFollowTable(e, r);
  }

  /** Starting and fetching a game read the same triple from a 200 response. */
  lemma StartAndFetchAgreeOnSuccess(r: Response)
    requires r.status == 200
    ensures StartGame(r) == FetchGame(r)
  {
  }

  /** Whether a response announces a winner: a 200 whose `gagnant` is readable and truthy. */
  predicate AnnouncesWinner(r: Response)
  {
    r.status == 200 && BodyField(r, "gagnant").Return? && Truthy(BodyField(r, "gagnant").value)
  }

  /**
    Playing a move behaves exactly like fetching the game, except on a response that
    announces a winner: then the winner ends the game instead. A 200 whose body cannot
    be read fails in the same way for both.
   */
  lemma PlayMoveIsFetchUnlessWinner(r: Response)
    ensures !AnnouncesWinner(r) ==> PlayMove(r) == FetchGame(r)
    ensures AnnouncesWinner(r) ==> PlayMove(r) == Raise(StopIteration(BodyField(r, "gagnant").value))
  {
  }

  // ---------------------------------------------------------------------------
  // Requests

  /** The base address of the server. */
  const URL: string := "https://pax.ulaval.ca/gobblet/api/"

  datatype Method = GET | POST | PUT

  /** The player's identifier and secret, sent as basic authentication. */
  datatype Credentials = Credentials(idul: string, secret: string)

  datatype Request = Request(verb: Method, url: string, auth: Credentials, body: Option<Value>)

  function ListGamesRequest(c: Credentials): (q: Request)
    ensures q.verb == GET && q.auth == c && q.body == None
    ensures q.url == URL + "parties/"
  {
    Request(GET, URL + "parties/", c, None)
  }

  function StartGameRequest(c: Credentials): (q: Request)
    ensures q.verb == POST && q.auth == c && q.body == None
    ensures q.url == URL + "partie"
  {
    Request(POST, URL + "partie", c, None)
  }

  function FetchGameRequest(id: string, c: Credentials): (q: Request)
    ensures q.verb == GET && q.auth == c && q.body == None
    ensures |URL| <= |q.url| && q.url[..|URL|] == URL && q.url[|URL|..] == "partie/" + id
  {
    Request(GET, URL + "partie/" + id, c, None)
  }

  /** The move request: a JSON object with exactly `id`, `origine` and `destination`, unchanged. */
  function PlayMoveRequest(id: Value, origin: Value, destination: Value, c: Credentials): (q: Request)
    ensures q.verb == PUT && q.auth == c && q.url == URL + "jouer/"
    ensures q.body.Some? && q.body.value.Obj?
    ensures q.body.value.fields.Keys == {"id", "origine", "destination"}
    ensures Get(q.body.value, "id") == Return(id)
    ensures Get(q.body.value, "origine") == Return(origin)
    ensures Get(q.body.value, "destination") == Return(destination)
  {
    Request(PUT, URL + "jouer/", c,
            Some(Obj(map["id" := id, "origine" := origin, "destination" := destination])))
  }

  /** No two endpoints share a method and address, whatever the game id. */
  lemma RequestsAreDistinct(c: Credentials, id: string, gid: Value, origin: Value, destination: Value)
    ensures var list, start, fetch, play :=
              ListGamesRequest(c), StartGameRequest(c), FetchGameRequest(id, c),
              PlayMoveRequest(gid, origin, destination, c);
            && (list.verb, list.url) != (start.verb, start.url)
            && (list.verb, list.url) != (fetch.verb, fetch.url)
            && (list.verb, list.url) != (play.verb, play.url)
            && (start.verb, start.url) != (fetch.verb, fetch.url)
            && (start.verb, start.url) != (play.verb, play.url)
            && (fetch.verb, fetch.url) != (play.verb, play.url)
  {
    var list, fetch := ListGamesRequest(c).url, FetchGameRequest(id, c).url;
    assert list[|URL| + 6] == 's';
    assert fetch[|URL| + 6] == '/';
  }

  /** A coordinate list as JSON. */
  function CoordsValue(xs: seq<int>): (v: Value)
    ensures v.Arr? && |v.items| == |xs|
  {
    Arr(seq(|xs|, i requires 0 <= i < |xs| => Num(xs[i])))
  }

  /** An origin as JSON: a pile number is a number, coordinates are a list. */
  function OriginValue(o: MoveInput.Origin): Value
  {
    match o
    case Pile(p) => Num(p)
    case Square(cs) => CoordsValue(cs)
  }

  /** The origin a JSON value denotes, if it is a number or a list of numbers. */
  function ReadOrigin(v: Value): Option<MoveInput.Origin>
  {
    match v
    case Num(n) => Some(MoveInput.Pile(n))
    case Arr(items) =>
      if forall i :: 0 <= i < |items| ==> items[i].Num?
      then Some(MoveInput.Square(seq(|items|, i requires 0 <= i < |items| => items[i].n)))
      else None
    case _ => None
  }

  /** The request body keeps a pile number apart from a coordinate list: the origin is recoverable. */
  lemma OriginValueRoundTrip(o: MoveInput.Origin)
    ensures ReadOrigin(OriginValue(o)) == Some(o)
  {
    match o
    case Pile(p) =>
    case Square(cs) =>
      var v := CoordsValue(cs);
      assert forall i :: 0 <= i < |cs| ==> v.items[i] == Num(cs[i]);
      assert seq(|v.items|, i requires 0 <= i < |v.items| => v.items[i].n) == cs;
  }
}

=== FILE: gobblet.dfy ===
/**
  The text renderer of the Gobblet client: pieces become 3-character tokens, a player
  becomes a name followed by the tokens of its piles, a 4x4 board becomes four labelled
  rows with separator lines, a game stacks an aligned header, the two players and the
  board, and a game listing becomes one block per game.
 */
module Gobblet {
  import opened Wrappers
  import opened Text

  /** A piece as the server sends it, `[joueur, taille]`. */
  datatype Piece = Piece(player: int, size: int)

  /** A board cell or a pile slot: the server's empty list is `None`. */
  type Cell = Option<Piece>

  /** A player: its name (`nom`) and the visible piece of each of its piles (`piles`). */
  datatype Player = Player(name: string, piles: seq<Cell>)

  /** The board (`plateau`), rows in the order the server sends them. */
  type Board = seq<seq<Cell>>

  /** The glyphs of each player, smallest size first (`GOBBLET_REPRÉSENTATION`). */
  const Glyphs: map<int, string> := map[1 := "▫◇◯□", 2 := "▪◆●■"]

  /**
    The lookup `GOBBLET_REPRÉSENTATION[joueur][taille]` succeeds: the player has a glyph
    row and the size is a Python list index into it (negative sizes count from the end).
   */
  predicate ValidPiece(p: Piece)
  {
    p.player in Glyphs && -|Glyphs[p.player]| <= p.size < |Glyphs[p.player]|
  }

  /** A piece named by its canonical coordinates: size 0 to 3, as the server sends it. */
  predicate CanonicalPiece(p: Piece)
  {
    p.player in Glyphs && 0 <= p.size < |Glyphs[p.player]|
  }

  predicate ValidCell(c: Cell)
  {
    c.Some? ==> ValidPiece(c.value)
  }

  predicate CanonicalCell(c: Cell)
  {
    c.Some? ==> CanonicalPiece(c.value)
  }

  predicate ValidCells(cells: seq<Cell>)
  {
    forall i :: 0 <= i < |cells| ==> ValidCell(cells[i])
  }

  predicate ValidBoard(b: Board)
  {
    forall i :: 0 <= i < |b| ==> ValidCells(b[i])
  }

  /** The glyph of a piece, with Python's indexing from the end for a negative size. */
  function Glyph(p: Piece): (g: char)
    requires ValidPiece(p)
    ensures g in Glyphs[p.player] && g != ' '
    ensures 0 <= p.size ==> g == Glyphs[p.player][p.size]
  {
    var row := Glyphs[p.player];
    if p.size < 0 then row[|row| + p.size] else row[p.size]
  }

  /**
    A negative size counts from the end of the player's row: it shows the same glyph
    as the canonical size four steps up.
   */
  lemma NegativeSizeFromEnd(p: Piece)
    requires ValidPiece(p) && p.size < 0
    ensures var q := Piece(p.player, p.size + |Glyphs[p.player]|);
            && CanonicalPiece(q) && Glyph(p) == Glyph(q)
  {
  }

  /** `formater_un_gobblet`: a glyph between two spaces, or three spaces for an empty cell. */
  function FormatPiece(c: Cell): (r: string)
    requires ValidCell(c)
    ensures |r| == 3 && r[0] == ' ' && r[2] == ' '
    ensures c.None? <==> r[1] == ' '
    ensures c.Some? ==> r[1] in Glyphs[c.value.player]
    ensures c.Some? && CanonicalPiece(c.value) ==> r[1] == Glyphs[c.value.player][c.value.size]
    ensures c.Some? && c.value.size < 0
            ==> r[1] == Glyphs[c.value.player][c.value.size + |Glyphs[c.value.player]|]
  {
    if c.Some? then [' ', Glyph(c.value), ' '] else "   "
  }

  /** The tokens of a row of cells, in order. */
  function Tokens(cells: seq<Cell>): (r: seq<string>)
    requires ValidCells(cells)
    ensures |r| == |cells| && UniformWidth(r, 3)
    ensures forall i :: 0 <= i < |cells| ==> r[i] == FormatPiece(cells[i])
  {
    seq(|cells|, i requires 0 <= i < |cells| => FormatPiece(cells[i]))
  }

  // ---------------------------------------------------------------------------
  // Reading tokens back: no two pieces share a token.

  /** The first position of `g` in `row`. */
  function IndexOf(row: string, g: char): (r: Option<nat>)
    ensures r.Some? <==> g in row
    ensures r.Some? ==> r.value < |row| && row[r.value] == g && g !in row[..r.value]
  {
    if g !in row then None else Some(FirstIndex(row, g))
  }

  /** The cell a 3-character token shows, if it is one `FormatPiece` can produce. */
  function ReadToken(t: string): Option<Cell>
  {
    if |t| != 3 || t[0] != ' ' || t[2] != ' ' then None
    else if t[1] == ' ' then Some(None)
    else match IndexOf(Glyphs[1], t[1])
      case Some(k) => Some(Some(Piece(1, k)))
      case None =>
        match IndexOf(Glyphs[2], t[1])
        case Some(k) => Some(Some(Piece(2, k)))
        case None => None
  }

  /** The glyph table is injective: every glyph names one player and one size. */
  lemma GlyphsDistinct()
    ensures forall i, j :: 0 <= i < j < 4 ==> Glyphs[1][i] != Glyphs[1][j] && Glyphs[2][i] != Glyphs[2][j]
    ensures forall i, j :: 0 <= i < 4 && 0 <= j < 4 ==> Glyphs[1][i] != Glyphs[2][j]
  {
  }

  /** Reading the token of a canonical cell gives the cell back. */
  lemma ReadFormatPiece(c: Cell)
    requires CanonicalCell(c)
    ensures ReadToken(FormatPiece(c)) == Some(c)
  {
    if c.Some? {
      var p := c.value;
      var t := FormatPiece(c);
      GlyphsDistinct();
      var g := Glyphs[p.player][p.size];
      assert t[1] == g;
      if p.player == 1 {
        var k := IndexOf(Glyphs[1], g).value;
        assert Glyphs[1][k] == g;
        assert k == p.size;
      } else {
        assert g !in Glyphs[1];
        var k := IndexOf(Glyphs[2], g).value;
        assert Glyphs[2][k] == g;
        assert k == p.size;
      }
    }
  }

  // ---------------------------------------------------------------------------
  // Players

  /** `formater_un_joueur`: the name, `": "`, then the pile tokens separated by single spaces. */
  function FormatPlayer(p: Player): string
    requires ValidCells(p.piles)
  {
    p.name + ": " + Join(" ", Tokens(p.piles))
  }

  /** Pile `k` of a player line: its token, then a space unless it is the last pile. */
  lemma PlayerSlotAt(p: Player, k: nat)
    requires ValidCells(p.piles) && k < |p.piles|
    ensures var line, base := FormatPlayer(p), |p.name| + 2;
            && base + 4 * k + 3 <= |line|
            && line[base + 4 * k .. base + 4 * k + 3] == FormatPiece(p.piles[k])
            && (k + 1 < |p.piles| ==> base + 4 * k + 3 < |line| && line[base + 4 * k + 3] == ' ')
  {
    var line, base := FormatPlayer(p), |p.name| + 2;
    var toks := Tokens(p.piles);
    OffsetIsProduct(k, 4);
    JoinSlotAfterPrefix(p.name + ": ", " ", toks, 3, k, base + 4 * k);
    assert toks[k] == FormatPiece(p.piles[k]);
  }

  /**
    Layout of a player line: after the name and `": "`, pile `k` occupies the four
    columns starting at `|name| + 2 + 4k` (token then space), in the original order.
   */
  lemma FormatPlayerLayout(p: Player)
    requires ValidCells(p.piles)
    ensures var line, base, n := FormatPlayer(p), |p.name| + 2, |p.piles|;
            && |line| == base + (if n == 0 then 0 else 4 * n - 1)
            && line[..base] == p.name + ": "
            && (forall k :: 0 <= k < n ==>
                  line[base + 4 * k .. base + 4 * k + 3] == FormatPiece(p.piles[k]))
            && (forall k :: 0 <= k < n - 1 ==> line[base + 4 * k + 3] == ' ')
  {
    var line, n := FormatPlayer(p), |p.piles|;
    var toks := Tokens(p.piles);
    assert line == (p.name + ": ") + Join(" ", toks);
    if n > 0 {
      JoinUniformLength(" ", toks, 3);
    }
    forall k | 0 <= k < n
      ensures line[|p.name| + 2 + 4 * k .. |p.name| + 2 + 4 * k + 3] == FormatPiece(p.piles[k])
      ensures k < n - 1 ==> line[|p.name| + 2 + 4 * k + 3] == ' '
    {
      PlayerSlotAt(p, k);
    }
  }

  // ---------------------------------------------------------------------------
  // The board

  /** The line drawn between two board rows. */
  const RowSeparator: string := " ───┼───┼───┼───\n"

  /** The column labels under the board. */
  const ColumnFooter: string := "  0   1   2   3 "

  /** Row `i` of the input: label `3 - i`, the cell tokens joined by `|`, a newline. */
  function RowText(i: int, row: seq<Cell>): string
    requires ValidCells(row)
  {
    IntToString(3 - i) + Join("|", Tokens(row)) + "\n"
  }

  function RowTexts(b: Board): (r: seq<string>)
    requires ValidBoard(b)
    ensures |r| == |b|
    ensures forall i :: 0 <= i < |b| ==> r[i] == RowText(i, b[i])
  {
    seq(|b|, i requires 0 <= i < |b| => RowText(i, b[i]))
  }

  /** `formater_plateau`: the row texts joined by the separator line, then the column labels. */
  function FormatBoard(b: Board): string
    requires ValidBoard(b)
  {
    Join(RowSeparator, RowTexts(b)) + ColumnFooter
  }

  /** The usual board: four rows of four cells. */
  predicate Square4(b: Board)
  {
    |b| == 4 && forall i :: 0 <= i < 4 ==> |b[i]| == 4
  }

  /** Where row `i` (input order) begins in the text of a 4x4 board. */
  function RowOffset(i: nat): nat
  {
    34 * i
  }

  /** Where the token of cell `(i, j)` begins in the text of a 4x4 board. */
  function CellOffset(i: nat, j: nat): nat
  {
    RowOffset(i) + 1 + 4 * j
  }

  /** A row of four cells: the label digit, 15 characters of tokens and bars, a newline. */
  lemma RowShape(i: nat, row: seq<Cell>)
    requires i < 4 && |row| == 4 && ValidCells(row)
    ensures RowText(i, row) == [DigitChar(3 - i)] + Join("|", Tokens(row)) + "\n"
    ensures |Join("|", Tokens(row))| == 15
  {
    assert IntToString(3 - i) == [DigitChar(3 - i)];
    JoinUniformLength("|", Tokens(row), 3);
  }

  /** Cell `j` of a row of four: its token at column `1 + 4j`, then a bar unless it is the last. */
  lemma RowCellAt(i: nat, row: seq<Cell>, j: nat)
    requires i < 4 && |row| == 4 && ValidCells(row) && j < 4
    ensures var t := RowText(i, row);
            && |t| == 17
            && t[1 + 4 * j .. 4 + 4 * j] == FormatPiece(row[j])
            && (j < 3 ==> t[4 + 4 * j] == '|')
  {
    var t := RowText(i, row);
    var toks := Tokens(row);
    var cells := Join("|", toks);
    RowShape(i, row);
    assert t[1..16] == cells;
    JoinUniformSlices("|", toks, 3, j);
    OffsetIsProduct(j, 4);
    assert cells[4 * j .. 4 * j + 3] == toks[j] == FormatPiece(row[j]);
    SliceOfSlice(t, 1, 16, 4 * j, 4 * j + 3);
    if j < 3 {
      assert cells[3 + 4 * j .. 4 + 4 * j] == "|";
      assert t[4 + 4 * j] == cells[3 + 4 * j] == cells[3 + 4 * j .. 4 + 4 * j][0];
    }
  }

  /**
    A row of four cells is 17 characters: the digit `3 - i`, four tokens with `|`
    between them, and a newline.
   */
  lemma RowLayout(i: nat, row: seq<Cell>)
    requires i < 4 && |row| == 4 && ValidCells(row)
    ensures var t := RowText(i, row);
            && |t| == 17
            && t[0] == DigitChar(3 - i)
            && (forall j :: 0 <= j < 4 ==> t[1 + 4 * j .. 4 + 4 * j] == FormatPiece(row[j]))
            && (forall j :: 0 <= j < 3 ==> t[4 + 4 * j] == '|')
            && t[16] == '\n'
  {
    var t := RowText(i, row);
    RowShape(i, row);
    forall j | 0 <= j < 4
      ensures t[1 + 4 * j .. 4 + 4 * j] == FormatPiece(row[j])
      ensures j < 3 ==> t[4 + 4 * j] == '|'
    {
      RowCellAt(i, row, j);
    }
  }

  /** The text of a 4x4 board before the column labels: four 17-character rows, three separators. */
  lemma BoardBodyLength(b: Board)
    requires ValidBoard(b) && Square4(b)
    ensures UniformWidth(RowTexts(b), 17)
    ensures |Join(RowSeparator, RowTexts(b))| == 119
  {
    var rows := RowTexts(b);
    forall i | 0 <= i < 4 ensures |rows[i]| == 17 {
      RowLayout(i, b[i]);
    }
    JoinUniformLength(RowSeparator, rows, 17);
  }

  /** Row `i` of a 4x4 board text, and the separator after it. */
  lemma BoardRowAt(b: Board, i: nat)
    requires ValidBoard(b) && Square4(b) && i < 4
    ensures var t := FormatBoard(b);
            && |t| == 135
            && t[RowOffset(i) .. RowOffset(i) + 17] == RowText(i, b[i])
            && (i < 3 ==> t[RowOffset(i) + 17 .. RowOffset(i + 1)] == RowSeparator)
  {
    var t := FormatBoard(b);
    var rows := RowTexts(b);
    var body := Join(RowSeparator, rows);
    BoardBodyLength(b);
    assert t == body + ColumnFooter;
    JoinUniformSlices(RowSeparator, rows, 17, i);
    OffsetIsProduct(i, 34);
    OffsetIsProduct(i + 1, 34);
    assert t[RowOffset(i) .. RowOffset(i) + 17] == body[34 * i .. 34 * i + 17];
    if i < 3 {
      assert t[RowOffset(i) + 17 .. RowOffset(i + 1)] == body[34 * i + 17 .. 34 * (i + 1)];
    }
  }

  /** Cell `(i, j)` of a 4x4 board text. */
  lemma BoardCellAt(b: Board, i: nat, j: nat)
    requires ValidBoard(b) && Square4(b) && i < 4 && j < 4
    ensures var t := FormatBoard(b);
            && |t| == 135
            && t[CellOffset(i, j) .. CellOffset(i, j) + 3] == FormatPiece(b[i][j])
  {
    var t := FormatBoard(b);
    var row := RowText(i, b[i]);
    var at, piece := CellOffset(i, j), FormatPiece(b[i][j]);
    BoardRowAt(b, i);
    RowCellAt(i, b[i], j);
    assert row[1 + 4 * j .. 1 + 4 * j + 3] == piece;
    SliceWithin(t, RowOffset(i), row, 1 + 4 * j, 3, at);
  }

  /**
    Layout of a 4x4 board: 135 characters; row `i` of the input occupies the 17
    characters at `34 * i` and is labelled `3 - i`; a separator line follows each
    of the first three rows; the column labels close the text.
   */
  lemma BoardLayout(b: Board)
    requires ValidBoard(b) && Square4(b)
    ensures var t := FormatBoard(b);
            && |t| == 135
            && t[119..] == ColumnFooter
            && (forall i :: 0 <= i < 4 ==> t[RowOffset(i) .. RowOffset(i) + 17] == RowText(i, b[i]))
            && (forall i :: 0 <= i < 4 ==> t[RowOffset(i)] == DigitChar(3 - i))
            && (forall i :: 0 <= i < 3 ==> t[RowOffset(i) + 17 .. RowOffset(i + 1)] == RowSeparator)
            && (forall i, j :: 0 <= i < 4 && 0 <= j < 4 ==>
                  t[CellOffset(i, j) .. CellOffset(i, j) + 3] == FormatPiece(b[i][j]))
  {
    var t := FormatBoard(b);
    BoardBodyLength(b);
    forall i | 0 <= i < 4
      ensures t[RowOffset(i) .. RowOffset(i) + 17] == RowText(i, b[i])
      ensures t[RowOffset(i)] == DigitChar(3 - i)
      ensures i < 3 ==> t[RowOffset(i) + 17 .. RowOffset(i + 1)] == RowSeparator
    {
      BoardRowAt(b, i);
      RowLayout(i, b[i]);
      assert t[RowOffset(i)] == RowText(i, b[i])[0];
    }
    forall i, j | 0 <= i < 4 && 0 <= j < 4
      ensures t[CellOffset(i, j) .. CellOffset(i, j) + 3] == FormatPiece(b[i][j])
    {
      BoardCellAt(b, i, j);
    }
  }

  /** The cell shown at `(i, j)` of a 135-character board text. */
  function ReadCell(t: string, i: nat, j: nat): Option<Cell>
    requires |t| == 135 && i < 4 && j < 4
  {
    ReadToken(t[CellOffset(i, j) .. CellOffset(i, j) + 3])
  }

  /** The 4x4 board a board text shows, read cell by cell from the fixed layout. */
  function ReadBoard(t: string): Option<Board>
  {
    if |t| == 135 && forall i, j :: 0 <= i < 4 && 0 <= j < 4 ==> ReadCell(t, i, j).Some?
    then Some(seq(4, i requires 0 <= i < 4 =>
                    seq(4, j requires 0 <= j < 4 => ReadCell(t, i, j).value)))
    else None
  }

  /** The board text loses nothing: every canonical 4x4 board can be read back from it. */
  lemma ReadFormatBoard(b: Board)
    requires Square4(b)
    requires forall i, j :: 0 <= i < 4 && 0 <= j < 4 ==> CanonicalCell(b[i][j])
    ensures ValidBoard(b) && ReadBoard(FormatBoard(b)) == Some(b)
  {
    assert ValidBoard(b);
    var t := FormatBoard(b);
    forall i, j | 0 <= i < 4 && 0 <= j < 4 ensures |t| == 135 && ReadCell(t, i, j) == Some(b[i][j]) {
      BoardCellAt(b, i, j);
      ReadFormatPiece(b[i][j]);
    }
    BoardRowAt(b, 0);
    assert ReadBoard(t).Some?;
    var r := ReadBoard(t).value;
    assert |r| == 4;
    forall i | 0 <= i < 4 ensures r[i] == b[i] {
      assert |r[i]| == 4;
      assert forall j :: 0 <= j < 4 ==> r[i][j] == b[i][j];
    }
    assert r == b;
  }

  // ---------------------------------------------------------------------------
  // A game

  /** The pile numbers above the players, after `s` columns of padding. */
  const PileHeader: string := "   0   1   2 \n"

  /** The longer of the two players' name lengths. */
  function NameWidth(players: seq<Player>): (s: nat)
    requires |players| >= 2
    ensures s >= |players[0].name| && s >= |players[1].name|
    ensures s == |players[0].name| || s == |players[1].name|
  {
    if |players[0].name| >= |players[1].name| then |players[0].name| else |players[1].name|
  }

  /** A player line padded on the left to `width` columns of name (unchanged when already that wide). */
  function PaddedPlayer(width: nat, p: Player): string
    requires ValidCells(p.piles) && |p.name| <= width
  {
    var line := FormatPlayer(p);
    if width == |p.name| then line else Spaces(width - |p.name|) + line
  }

  predicate ValidPlayers(players: seq<Player>)
  {
    |players| >= 2 && ValidCells(players[0].piles) && ValidCells(players[1].piles)
  }

  /** `formater_jeu`: header, the two players aligned on the longer name, a blank line, the board. */
  function FormatGame(b: Board, players: seq<Player>): string
    requires ValidBoard(b) && ValidPlayers(players)
  {
    var s := NameWidth(players);
    Spaces(s) + PileHeader
    + PaddedPlayer(s, players[0]) + "\n"
    + PaddedPlayer(s, players[1]) + "\n\n"
    + FormatBoard(b)
  }

  /**
    Every player line is left-padded by exactly `width - |name|` spaces, so its `": "`
    lands at columns `width` and `width + 1`.
   */
  lemma PaddedPlayerLayout(width: nat, p: Player)
    requires ValidCells(p.piles) && |p.name| <= width
    ensures PaddedPlayer(width, p) == Spaces(width - |p.name|) + FormatPlayer(p)
    ensures |PaddedPlayer(width, p)| >= width + 2
    ensures PaddedPlayer(width, p)[width .. width + 2] == ": "
  {
    var line := FormatPlayer(p);
    var pad := Spaces(width - |p.name|);
    FormatPlayerLayout(p);
    if width == |p.name| {
      assert pad == [];
      assert pad + line == line;
    }
    var r := pad + line;
    assert r[|pad|..] == line;
    SliceOfSuffix(r, |pad|, |p.name|, |p.name| + 2);
  }

  /** Pile number `k` of the header stands at column `width + 3 + 4k`. */
  lemma HeaderDigitAt(width: nat, k: nat)
    requires k < 3
    ensures var header := Spaces(width) + PileHeader;
            width + 3 + 4 * k < |header| && header[width + 3 + 4 * k] == DigitChar(k)
  {
    var header := Spaces(width) + PileHeader;
    assert header[width + 3 + 4 * k] == PileHeader[3 + 4 * k];
  }

  /** The glyph of pile `k` stands at column `width + 3 + 4k` of a padded player line. */
  lemma PaddedGlyphAt(width: nat, p: Player, k: nat)
    requires ValidCells(p.piles) && |p.name| <= width && k < |p.piles|
    ensures var line := PaddedPlayer(width, p);
            width + 3 + 4 * k < |line| && line[width + 3 + 4 * k] == FormatPiece(p.piles[k])[1]
  {
    PaddedPlayerLayout(width, p);
    PlayerSlotAt(p, k);
    var pad := Spaces(width - |p.name|);
    var plain := FormatPlayer(p);
    var base := |p.name| + 2;
    var line := pad + plain;
    assert plain[base + 4 * k + 1] == plain[base + 4 * k .. base + 4 * k + 3][1];
    assert line[|pad| + base + 4 * k + 1] == plain[base + 4 * k + 1];
  }

  /**
    The pile numbers of the header sit over the piles: column `width + 3 + 4k` holds
    the digit `k` in the header and the glyph column of pile `k` in a padded player line.
   */
  lemma PileColumnsAlign(width: nat, p: Player, k: nat)
    requires ValidCells(p.piles) && |p.name| <= width
    requires k < 3 && k < |p.piles|
    ensures var header, line := Spaces(width) + PileHeader, PaddedPlayer(width, p);
            && width + 3 + 4 * k < |header| && header[width + 3 + 4 * k] == DigitChar(k)
            && width + 3 + 4 * k < |line| && line[width + 3 + 4 * k] == FormatPiece(p.piles[k])[1]
  {
    HeaderDigitAt(width, k);
    PaddedGlyphAt(width, p, k);
  }

  /**
    Layout of a game: the header is `s` spaces and the pile numbers, `s` being the
    longer name length; each player line is padded by `s - |name|` spaces (none for the
    longer name); the board text closes the result verbatim after a blank line.
   */
  lemma FormatGameLayout(b: Board, players: seq<Player>)
    requires ValidBoard(b) && ValidPlayers(players)
    ensures var s := NameWidth(players);
            FormatGame(b, players)
            == Spaces(s) + PileHeader
               + (Spaces(s - |players[0].name|) + FormatPlayer(players[0])) + "\n"
               + (Spaces(s - |players[1].name|) + FormatPlayer(players[1])) + "\n\n"
               + FormatBoard(b)
  {
    var s := NameWidth(players);
    PaddedPlayerLayout(s, players[0]);
    PaddedPlayerLayout(s, players[1]);
  }

  // ---------------------------------------------------------------------------
  // The game listing

  /** One entry of `parties['parties']`; `winner` is `None` when the game has no winner. */
  datatype GameSummary = GameSummary(id: string, date: string, players: seq<string>, winner: Option<string>)

  /** How an f-string shows the winner: Python prints a missing winner as `None`. */
  function WinnerText(w: Option<string>): string
  {
    match w
    case None => "None"
    case Some(name) => name
  }

  /** The four lines describing one game. */
  function SummaryBlock(g: GameSummary): (r: string)
    ensures |r| >= 5 && r[..5] == "ID : "
    ensures var w := WinnerText(g.winner);
            |r| >= |w| && r[|r| - |w|..] == w
  {
    "ID : " + g.id + "\nDate : " + g.date
    + "\nJoueurs : " + Join(" & ", g.players)
    + "\n Gagnant : " + WinnerText(g.winner)
  }

  function SummaryBlocks(games: seq<GameSummary>): (r: seq<string>)
    ensures |r| == |games|
    ensures forall i :: 0 <= i < |games| ==> r[i] == SummaryBlock(games[i])
  {
    seq(|games|, i requires 0 <= i < |games| => SummaryBlock(games[i]))
  }

  /** `formater_les_parties`: one block per game, in the given order, separated by a blank line. */
  function FormatGameList(games: seq<GameSummary>): (r: string)
    ensures r == "" <==> |games| == 0
    ensures |games| > 0 ==> |r| >= 5 && r[..5] == "ID : "
  {
    var blocks := SummaryBlocks(games);
    if |blocks| == 0 then ""
    else
      JoinHead("\n\n", blocks);
      assert Join("\n\n", blocks)[..5] == blocks[0][..|blocks[0]|][..5];
      Join("\n\n", blocks)
  }

  /** The listing of a concatenation is the two listings with a blank line between: order is kept. */
  lemma GameListAppend(a: seq<GameSummary>, b: seq<GameSummary>)
    requires |a| > 0 && |b| > 0
    ensures FormatGameList(a + b) == FormatGameList(a) + "\n\n" + FormatGameList(b)
  {
    assert SummaryBlocks(a + b) == SummaryBlocks(a) + SummaryBlocks(b);
    JoinAppend("\n\n", SummaryBlocks(a), SummaryBlocks(b));
  }

  /** The listing of one game is that game's block alone. */
  lemma GameListSingle(g: GameSummary)
    ensures FormatGameList([g]) == SummaryBlock(g)
  {
  }

  predicate SingleLine(s: string)
  {
    '\n' !in s
  }

  predicate SingleLineSummary(g: GameSummary)
  {
    && SingleLine(g.id) && SingleLine(g.date)
    && (forall i :: 0 <= i < |g.players| ==> SingleLine(g.players[i]))
    && (g.winner.Some? ==> SingleLine(g.winner.value))
  }

  /** The number of line breaks in `s`. */
  function Newlines(s: string): nat
  {
    multiset(s)['\n']
  }

  lemma NewlinesAppend(a: string, b: string)
    ensures Newlines(a + b) == Newlines(a) + Newlines(b)
  {
    assert multiset(a + b) == multiset(a) + multiset(b);
  }

  /** A line break joining two single-line texts. */
  lemma NewlinesAround(a: string, b: string)
    requires SingleLine(a) && SingleLine(b)
    ensures Newlines(a + "\n" + b) == 1
  {
    NewlinesAppend(a, "\n");
    NewlinesAppend(a + "\n", b);
  }

  /** Four single-line texts joined by line breaks hold three line breaks. */
  lemma FourLinesNewlines(l1: string, l2: string, l3: string, l4: string)
    requires SingleLine(l1) && SingleLine(l2) && SingleLine(l3) && SingleLine(l4)
    ensures Newlines(l1 + "\n" + l2 + "\n" + l3 + "\n" + l4) == 3
  {
    NewlinesAround(l1, l2);
    NewlinesAround(l3, l4);
    var a, b := l1 + "\n" + l2, l3 + "\n" + l4;
    assert l1 + "\n" + l2 + "\n" + l3 + "\n" + l4 == (a + "\n") + b;
    NewlinesAppend(a, "\n");
    NewlinesAppend(a + "\n", b);
  }

  /** The block of a game is its four lines joined by line breaks. */
  lemma SummaryBlockLines(g: GameSummary)
    ensures SummaryBlock(g)
            == ("ID : " + g.id) + "\n" + ("Date : " + g.date) + "\n"
               + ("Joueurs : " + Join(" & ", g.players)) + "\n"
               + (" Gagnant : " + WinnerText(g.winner))
  {
    assert "\nDate : " == "\n" + "Date : ";
    assert "\nJoueurs : " == "\n" + "Joueurs : ";
    assert "\n Gagnant : " == "\n" + " Gagnant : ";
  }

  /** A block of single-line fields has exactly three line breaks, so it spans four lines. */
  lemma SummaryBlockNewlines(g: GameSummary)
    requires SingleLineSummary(g)
    ensures Newlines(SummaryBlock(g)) == 3
  {
    JoinAvoids(" & ", g.players, '\n');
    SummaryBlockLines(g);
    FourLinesNewlines("ID : " + g.id, "Date : " + g.date,
                      "Joueurs : " + Join(" & ", g.players), " Gagnant : " + WinnerText(g.winner));
  }

  /** A blank line between two texts adds two line breaks. */
  lemma NewlinesAroundBlank(a: string, b: string)
    ensures Newlines(a + "\n\n" + b) == Newlines(a) + 2 + Newlines(b)
  {
    NewlinesAppend(a, "\n\n");
    NewlinesAppend(a + "\n\n", b);
    assert multiset("\n\n") == multiset{'\n', '\n'};
  }

  /** Texts of three line breaks each, joined by blank lines: five more line breaks per extra text. */
  lemma {:induction false} JoinBlocksNewlines(blocks: seq<string>)
    requires |blocks| > 0
    requires forall i :: 0 <= i < |blocks| ==> Newlines(blocks[i]) == 3
    ensures Newlines(Join("\n\n", blocks)) == 5 * |blocks| - 2
    decreases |blocks|
  {
    if |blocks| > 1 {
      JoinBlocksNewlines(blocks[1..]);
      NewlinesAroundBlank(blocks[0], Join("\n\n", blocks[1..]));
    }
  }

  /**
    With single-line fields, `n >= 1` games give `5n - 2` line breaks: four lines per
    game and one blank line between neighbours, so no game is dropped or merged.
   */
  lemma GameListNewlines(games: seq<GameSummary>)
    requires |games| > 0
    requires forall i :: 0 <= i < |games| ==> SingleLineSummary(games[i])
    ensures Newlines(FormatGameList(games)) == 5 * |games| - 2
  {
    var blocks := SummaryBlocks(games);
    forall i | 0 <= i < |games| ensures Newlines(blocks[i]) == 3 {
      SummaryBlockNewlines(games[i]);
    }
    JoinBlocksNewlines(blocks);
  }
}

=== FILE: move.dfy ===
/**
  The pure part of reading a move (`récupérer_le_coup`): the two answers typed by the
  player become an origin (a pile number or board coordinates) and a destination.
 */
module MoveInput {
  import opened Wrappers
  import opened Text

  /** A pile number (`int`) or a list of board coordinates (`list` of `int`). */
  datatype Origin = Pile(index: int) | Square(coords: seq<int>)

  datatype Move = Move(origin: Origin, destination: seq<int>)

  /** Python's `ValueError` from `int()`, with the literal it rejected. */
  datatype ParseError = ValueError(literal: string)

  /** Every segment converted to an integer, in order; the first segment that is not an integer literal is the error. */
  function ParseInts(segments: seq<string>): (r: Result<seq<int>, ParseError>)
    ensures r.Ok? <==> forall i :: 0 <= i < |segments| ==> IsIntLiteral(segments[i])
    ensures r.Ok? ==> |r.value| == |segments|
    ensures r.Ok? ==> forall i :: 0 <= i < |segments| ==> ParseInt(segments[i]) == Some(r.value[i])
    ensures r.Err? ==> exists i :: 0 <= i < |segments| && segments[i] == r.error.literal
                                   && !IsIntLiteral(segments[i])
                                   && forall j :: 0 <= j < i ==> IsIntLiteral(segments[j])
    decreases |segments|
  {
    if |segments| == 0 then Ok([])
    else
      match ParseInt(segments[0])
      case None => Err(ValueError(segments[0]))
      case Some(n) =>
        match ParseInts(segments[1..])
        case Err(e) =>
          assert exists i :: 1 <= i < |segments| && segments[i] == e.literal
                             && !IsIntLiteral(segments[i])
                             && forall j :: 1 <= j < i ==> IsIntLiteral(segments[j]) by {
            var k :| 0 <= k < |segments| - 1 && segments[1..][k] == e.literal
                     && !IsIntLiteral(segments[1..][k])
                     && forall j :: 0 <= j < k ==> IsIntLiteral(segments[1..][j]);
            assert forall j :: 1 <= j < k + 1 ==> IsIntLiteral(segments[j]) by {
              forall j | 1 <= j < k + 1 ensures IsIntLiteral(segments[j]) {
                assert segments[j] == segments[1..][j - 1];
              }
            }
          }
          Err(e)
        case Ok(rest) => Ok([n] + rest)
  }

  /** A comma-separated answer read as a list of integers, one per segment. */
  function ParseCoords(s: string): (r: Result<seq<int>, ParseError>)
    ensures r.Ok? ==> |r.value| == multiset(s)[','] + 1
  {
    SplitCount(s, ',');
    ParseInts(Split(s, ','))
  }

  /** The origin: a single `int` when the answer has at most one character, coordinates otherwise. */
  function ParseOrigin(org: string): (r: Result<Origin, ParseError>)
    ensures r.Ok? ==> (r.value.Pile? <==> |org| <= 1)
    ensures |org| <= 1 ==> (r.Ok? <==> IsIntLiteral(org))
    ensures |org| <= 1 && r.Err? ==> r.error == ValueError(org)
    ensures |org| > 1 ==> (r.Ok? <==> ParseCoords(org).Ok?)
  {
    if |org| > 1 then
      match ParseCoords(org)
      case Ok(coords) => Ok(Square(coords))
      case Err(e) => Err(e)
    else
      match ParseInt(org)
      case Some(n) => Ok(Pile(n))
      case None => Err(ValueError(org))
  }

  /** The move read from the two answers; the origin is parsed, and can fail, first. */
  function ParseMove(org: string, dst: string): (r: Result<Move, ParseError>)
    ensures r.Ok? ==> (r.value.origin.Pile? <==> |org| <= 1)
    ensures r.Ok? && r.value.origin.Square? ==> |r.value.origin.coords| == multiset(org)[','] + 1
    ensures r.Ok? ==> |r.value.destination| == multiset(dst)[','] + 1
    ensures r.Ok? <==> ParseOrigin(org).Ok? && ParseCoords(dst).Ok?
    ensures ParseOrigin(org).Err? ==> r == Err(ParseOrigin(org).error)
  {
    match ParseOrigin(org)
    case Err(e) => Err(e)
    case Ok(origin) =>
      match ParseCoords(dst)
      case Err(e) => Err(e)
      case Ok(destination) => Ok(Move(origin, destination))
  }

  // ---------------------------------------------------------------------------
  // Writing a move back as the player would type it

  function ShowInts(xs: seq<int>): (r: seq<string>)
    ensures |r| == |xs|
    ensures forall i :: 0 <= i < |xs| ==> r[i] == IntToString(xs[i])
  {
    seq(|xs|, i requires 0 <= i < |xs| => IntToString(xs[i]))
  }

  /** Coordinates as typed: the numbers separated by commas. */
  function ShowCoords(xs: seq<int>): string
  {
    Join(",", ShowInts(xs))
  }

  function ShowOrigin(o: Origin): string
  {
    match o
    case Pile(p) => IntToString(p)
    case Square(cs) => ShowCoords(cs)
  }

  /** Moves the two prompts can express: a one-digit pile or at least two coordinates, and a destination. */
  predicate Typable(m: Move)
  {
    && (match m.origin
        case Pile(p) => 0 <= p < 10
        case Square(cs) => |cs| >= 2)
    && |m.destination| >= 1
  }

  /** Reading what the player typed for a list of numbers gives the numbers back. */
  lemma ParseShowCoords(xs: seq<int>)
    requires |xs| >= 1
    ensures ParseCoords(ShowCoords(xs)) == Ok(xs)
  {
    var strs := ShowInts(xs);
    forall i | 0 <= i < |strs| ensures ',' !in strs[i] && ParseInt(strs[i]) == Some(xs[i]) {
      IntToStringRoundTrip(xs[i]);
    }
    SplitJoin(strs, ',');
    var r := ParseInts(strs);
    assert r.Ok?;
    assert r.value == xs;
  }

  /** Typing a typable move at the two prompts reads back exactly that move. */
  lemma MoveRoundTrip(m: Move)
    requires Typable(m)
    ensures ParseMove(ShowOrigin(m.origin), ShowCoords(m.destination)) == Ok(m)
  {
    ParseShowCoords(m.destination);
    match m.origin
    case Pile(p) =>
      IntToStringRoundTrip(p);
    case Square(cs) =>
      ParseShowCoords(cs);
      var s := ShowCoords(cs);
      var strs := ShowInts(cs);
      assert s == strs[0] + "," + Join(",", strs[1..]);
      IntToStringRoundTrip(cs[0]);
      assert |s| > 1;
  }

  /**
    A pile number of two characters or more (`"10"`, `"-1"`) is not read as a pile:
    it becomes a one-element coordinate list.
   */
  lemma LongPileIsSquare(n: int)
    requires n < 0 || n >= 10
    ensures ParseOrigin(IntToString(n)) == Ok(Square([n]))
  {
    var s := IntToString(n);
    IntToStringRoundTrip(n);
    assert |s| > 1;
    SplitWithoutSeparator(s, ',');
    var r := ParseInts([s]);
    assert r.Ok? && |r.value| == 1 && ParseInt(s) == Some(r.value[0]);
    assert r.value == [n];
  }

  /**
    An empty segment — a leading or trailing comma, or two commas in a row — makes
    `int('')` fail, so the answer is rejected.
   */
  lemma EmptySegmentRejected(s: string, i: nat)
    requires i < |s| && s[i] == ','
    requires i == 0 || i == |s| - 1 || (i + 1 < |s| && s[i + 1] == ',')
    ensures ParseCoords(s).Err?
    ensures |s| > 1 ==> ParseOrigin(s).Err?
  {
    EmptyPieceInSplit(s, i, ',');
    assert !IsIntLiteral("");
  }
}

=== FILE: text.dfy ===
/**
  The handful of Python string operations the client relies on: `sep.join(parts)`,
  `s.split(c)`, `' ' * n`, `str(n)` and `int(s)`, with the facts about them that the
  renderer and the move parser need.
 */
module Text {
  import opened Wrappers

  /** `' ' * n` */
  function Spaces(n: nat): (r: string)
    ensures |r| == n
    ensures forall i :: 0 <= i < n ==> r[i] == ' '
  {
    seq(n, _ => ' ')
  }

  /** `sep.join(parts)`: the parts in order, with `sep` between neighbours only. */
  function Join(sep: string, parts: seq<string>): string
    decreases |parts|
  {
    if |parts| == 0 then ""
    else if |parts| == 1 then parts[0]
    else parts[0] + sep + Join(sep, parts[1..])
  }

  /** Every part is exactly `w` characters long. */
  predicate UniformWidth(parts: seq<string>, w: nat)
  {
    forall i :: 0 <= i < |parts| ==> |parts[i]| == w
  }

  /** Joining non-empty lists distributes over concatenation of the lists. */
  lemma {:induction false} JoinAppend(sep: string, a: seq<string>, b: seq<string>)
    requires |a| > 0 && |b| > 0
    ensures Join(sep, a + b) == Join(sep, a) + sep + Join(sep, b)
    decreases |a|
  {
    if |a| == 1 {
      assert (a + b)[1..] == b;
    } else {
      assert (a + b)[1..] == a[1..] + b;
      JoinAppend(sep, a[1..], b);
    }
  }

  /** Joining `n` parts of width `w` takes `n * w` characters plus `n - 1` separators. */
  lemma {:induction false} JoinUniformLength(sep: string, parts: seq<string>, w: nat)
    requires UniformWidth(parts, w) && |parts| > 0
    ensures |Join(sep, parts)| == |parts| * w + (|parts| - 1) * |sep|
    decreases |parts|
  {
    if |parts| > 1 {
      assert UniformWidth(parts[1..], w);
      JoinUniformLength(sep, parts[1..], w);
      assert |parts| * w == w + (|parts| - 1) * w;
      assert (|parts| - 1) * |sep| == |sep| + (|parts| - 2) * |sep|;
    }
  }

  /** A join starts with its first part, followed by the separator when more parts follow. */
  lemma JoinHead(sep: string, parts: seq<string>)
    requires |parts| > 0
    ensures |parts[0]| <= |Join(sep, parts)|
    ensures Join(sep, parts)[..|parts[0]|] == parts[0]
    ensures |parts| > 1 ==>
              |parts[0]| + |sep| <= |Join(sep, parts)| &&
              Join(sep, parts)[|parts[0]| .. |parts[0]| + |sep|] == sep
  {
    if |parts| > 1 {
      var whole := Join(sep, parts);
      assert whole == parts[0] + sep + Join(sep, parts[1..]);
    }
  }

  /** `k * step`, built up one step at a time. */
  function Offset(k: nat, step: nat): nat
  {
    if k == 0 then 0 else Offset(k - 1, step) + step
  }

  lemma {:induction false} OffsetIsProduct(k: nat, step: nat)
    ensures Offset(k, step) == k * step
  {
    if k > 0 {
      OffsetIsProduct(k - 1, step);
    }
  }

  /**
    When all parts have the same width `w`, part `k` sits at offset `Offset(k, w + |sep|)`,
    that is `k * (w + |sep|)`, and a separator follows every part but the last.
   */
  lemma {:induction false} JoinUniformSlices(sep: string, parts: seq<string>, w: nat, k: nat)
    requires UniformWidth(parts, w) && k < |parts|
    ensures Offset(k, w + |sep|) + w <= |Join(sep, parts)|
    ensures Join(sep, parts)[Offset(k, w + |sep|) .. Offset(k, w + |sep|) + w] == parts[k]
    ensures k + 1 < |parts| ==>
              Offset(k, w + |sep|) + w + |sep| <= |Join(sep, parts)| &&
              Join(sep, parts)[Offset(k, w + |sep|) + w .. Offset(k, w + |sep|) + w + |sep|] == sep
    decreases k
  {
    JoinHead(sep, parts);
    if k > 0 {
      var off := Offset(k - 1, w + |sep|);
      assert UniformWidth(parts[1..], w);
      JoinUniformSlices(sep, parts[1..], w, k - 1);
      JoinDropHead(sep, parts, off, off + w);
      if k + 1 < |parts| {
        JoinDropHead(sep, parts, off + w, off + w + |sep|);
      }
    }
  }

  /** Past the first part and its separator, a join continues with the join of the rest. */
  lemma JoinDropHead(sep: string, parts: seq<string>, i: nat, j: nat)
    requires |parts| > 1 && i <= j <= |Join(sep, parts[1..])|
    ensures var step := |parts[0]| + |sep|;
            && step + j <= |Join(sep, parts)|
            && Join(sep, parts)[step + i .. step + j] == Join(sep, parts[1..])[i..j]
  {
    var whole, rest := Join(sep, parts), Join(sep, parts[1..]);
    var step := |parts[0]| + |sep|;
    assert whole == parts[0] + sep + rest;
    assert whole[step..] == rest;
    SliceOfSuffix(whole, step, i, j);
  }

  /** The same slots in a join that follows a fixed prefix, addressed by column `at`. */
  lemma JoinSlotAfterPrefix(prefix: string, sep: string, parts: seq<string>, w: nat, k: nat, at: nat)
    requires UniformWidth(parts, w) && k < |parts|
    requires at == |prefix| + Offset(k, w + |sep|)
    ensures var line := prefix + Join(sep, parts);
            && at + w <= |line| && line[at .. at + w] == parts[k]
            && (k + 1 < |parts| ==> at + w + |sep| <= |line| && line[at + w .. at + w + |sep|] == sep)
            && (k + 1 < |parts| && |sep| == 1 ==> line[at + w] == sep[0])
  {
    var body := Join(sep, parts);
    var line := prefix + body;
    var off := Offset(k, w + |sep|);
    assert line[|prefix| .. |prefix| + |body|] == body;
    JoinUniformSlices(sep, parts, w, k);
    SliceWithin(line, |prefix|, body, off, w, at);
    if k + 1 < |parts| {
      SliceWithin(line, |prefix|, body, off + w, |sep|, at + w);
      if |sep| == 1 {
        assert line[at + w] == line[at + w .. at + w + |sep|][0];
      }
    }
  }

  lemma SliceOfSlice(s: string, a: nat, b: nat, i: nat, j: nat)
    requires a <= b <= |s| && i <= j <= b - a
    ensures s[a..b][i..j] == s[a + i .. a + j]
  {
    assert forall k :: 0 <= k < j - i ==> s[a..b][i..j][k] == s[a + i .. a + j][k];
  }

  /** A slice of a piece found inside a text is the matching slice of the text. */
  lemma SliceWithin(t: string, off: nat, piece: string, a: nat, n: nat, at: nat)
    requires off + |piece| <= |t| && t[off .. off + |piece|] == piece
    requires a + n <= |piece| && at == off + a
    ensures at + n <= |t| && t[at .. at + n] == piece[a .. a + n]
  {
    forall k | a <= k < a + n
      ensures t[off + k] == piece[k]
    {
      assert t[off + k] == t[off .. off + |piece|][k];
    }
    assert t[at .. at + n] == piece[a .. a + n];
  }


  lemma SliceOfSuffix(s: string, d: nat, i: nat, j: nat)
    requires d + j <= |s| && i <= j
    ensures s[d + i .. d + j] == s[d..][i..j]
  {
  }

  /** No part contains `c`, so neither does their join with a `c`-free separator. */
  lemma {:induction false} JoinAvoids(sep: string, parts: seq<string>, c: char)
    requires c !in sep
    requires forall i :: 0 <= i < |parts| ==> c !in parts[i]
    ensures c !in Join(sep, parts)
    decreases |parts|
  {
    if |parts| > 1 {
      JoinAvoids(sep, parts[1..], c);
    }
  }

  /** `s.split(c)` for a one-character separator `c`. */
  function Split(s: string, c: char): (r: seq<string>)
    ensures |r| > 0
    ensures forall i :: 0 <= i < |r| ==> c !in r[i]
    decreases |s|
  {
    if |s| == 0 then [""]
    else
      assert s == [s[0]] + s[1..];
      var rest := Split(s[1..], c);
      if s[0] == c then [""] + rest
      else [[s[0]] + rest[0]] + rest[1..]
  }

  /** The split has one piece more than there are separators in `s`. */
  lemma {:induction false} SplitCount(s: string, c: char)
    ensures |Split(s, c)| == multiset(s)[c] + 1
    decreases |s|
  {
    if |s| > 0 {
      assert s == [s[0]] + s[1..];
      SplitCount(s[1..], c);
    }
  }

  /** Gluing the pieces of a split back together with the separator gives the original. */
  lemma {:induction false} JoinSplit(s: string, c: char)
    ensures Join([c], Split(s, c)) == s
    decreases |s|
  {
    if c !in s {
      SplitWithoutSeparator(s, c);
    } else {
      var i := FirstIndex(s, c);
      var x, y := s[..i], s[i + 1..];
      assert s == x + [c] + y;
      SplitAtSeparator(x, y, c);
      SplitWithoutSeparator(x, c);
      JoinSplit(y, c);
      var tail := Split(y, c);
      assert Split(s, c) == [x] + tail;
      assert ([x] + tail)[1..] == tail;
    }
  }

  /** The position of the first `c` in `s`. */
  function FirstIndex(s: string, c: char): (i: nat)
    requires c in s
    ensures i < |s| && s[i] == c && c !in s[..i]
  {
    if s[0] == c then 0
    else
      assert c in s[1..] by { assert s == [s[0]] + s[1..]; }
      var j := FirstIndex(s[1..], c);
      assert s[..j + 1] == [s[0]] + s[1..][..j];
      j + 1
  }

  /** A separator occurrence cuts the split in two independent halves. */
  lemma {:induction false} SplitAtSeparator(x: string, y: string, c: char)
    ensures Split(x + [c] + y, c) == Split(x, c) + Split(y, c)
    decreases |x|
  {
    var s := x + [c] + y;
    if |x| == 0 {
      assert s == [c] + y;
      assert s[1..] == y;
    } else {
      assert s[1..] == x[1..] + [c] + y;
      SplitAtSeparator(x[1..], y, c);
    }
  }

  /**
    A separator at either end of `s`, or two separators in a row, leave an empty
    piece in the split.
   */
  lemma EmptyPieceInSplit(s: string, i: nat, c: char)
    requires i < |s| && s[i] == c
    requires i == 0 || i == |s| - 1 || (i + 1 < |s| && s[i + 1] == c)
    ensures "" in Split(s, c)
  {
    var x, y := s[..i], s[i + 1..];
    assert s == x + [c] + y;
    SplitAtSeparator(x, y, c);
    if i == 0 {
      assert Split(x, c) == [""];
    } else if i == |s| - 1 {
      assert Split(y, c) == [""];
    } else {
      EmptyPieceAtFront(y, c);
    }
  }

  lemma EmptyPieceAtFront(y: string, c: char)
    requires |y| > 0 && y[0] == c
    ensures |Split(y, c)| > 0 && Split(y, c)[0] == ""
  {
    assert y == [] + [c] + y[1..];
    SplitAtSeparator([], y[1..], c);
  }

  /** A string without the separator splits into itself alone. */
  lemma {:induction false} SplitWithoutSeparator(s: string, c: char)
    requires c !in s
    ensures Split(s, c) == [s]
    decreases |s|
  {
    if |s| > 0 {
      SplitWithoutSeparator(s[1..], c);
      assert s == [s[0]] + s[1..];
    }
  }

  /** Splitting a join of separator-free parts gives the parts back. */
  lemma {:induction false} SplitJoin(parts: seq<string>, c: char)
    requires |parts| > 0
    requires forall i :: 0 <= i < |parts| ==> c !in parts[i]
    ensures Split(Join([c], parts), c) == parts
    decreases |parts|
  {
    SplitWithoutSeparator(parts[0], c);
    if |parts| > 1 {
      SplitJoin(parts[1..], c);
      SplitAtSeparator(parts[0], Join([c], parts[1..]), c);
      assert parts == [parts[0]] + parts[1..];
    }
  }

  predicate IsDigit(ch: char)
  {
    '0' <= ch <= '9'
  }

  predicate AllDigits(s: string)
  {
    forall i :: 0 <= i < |s| ==> IsDigit(s[i])
  }

  /**
    What the model accepts from Python's `int()`: an optional `+` or `-`
    followed by one or more ASCII digits.
   */
  predicate IsIntLiteral(s: string)
  {
    if |s| > 0 && (s[0] == '-' || s[0] == '+') then |s| > 1 && AllDigits(s[1..])
    else |s| > 0 && AllDigits(s)
  }

  function DigitChar(d: nat): (ch: char)
    requires d < 10
    ensures IsDigit(ch)
  {
    (d + '0' as int) as char
  }

  function DigitValue(ch: char): nat
    requires IsDigit(ch)
  {
    ch as int - '0' as int
  }

  /** Decimal digits of `n`, most significant first, no leading zero. */
  function NatToString(n: nat): (r: string)
    ensures |r| >= 1 && AllDigits(r)
    ensures n < 10 <==> |r| == 1
    decreases n
  {
    if n < 10 then [DigitChar(n)] else NatToString(n / 10) + [DigitChar(n % 10)]
  }

  /** `str(n)` for a Python `int`. */
  function IntToString(n: int): (r: string)
  {
    if n < 0 then "-" + NatToString(-n) else NatToString(n)
  }

  /** The value of a run of decimal digits (leading zeros allowed, as `int()` allows them). */
  function DigitsValue(s: string): nat
    requires AllDigits(s)
    decreases |s|
  {
    if |s| == 0 then 0 else 10 * DigitsValue(s[..|s| - 1]) + DigitValue(s[|s| - 1])
  }

  /** `int(s)`; `None` where Python raises `ValueError`. */
  function ParseInt(s: string): (r: Option<int>)
    ensures r.Some? <==> IsIntLiteral(s)
  {
    if !IsIntLiteral(s) then None
    else if s[0] == '-' then Some(0 - DigitsValue(s[1..]))
    else if s[0] == '+' then Some(DigitsValue(s[1..]))
    else Some(DigitsValue(s))
  }

  lemma {:induction false} DigitsOfNat(n: nat)
    ensures DigitsValue(NatToString(n)) == n
    decreases n
  {
    var s := NatToString(n);
    if n >= 10 {
      DigitsOfNat(n / 10);
      assert s[..|s| - 1] == NatToString(n / 10);
    }
  }

  /** A leading zero does not change the value of a run of digits. */
  lemma {:induction false} LeadingZero(d: string)
    requires AllDigits(d)
    ensures AllDigits("0" + d) && DigitsValue("0" + d) == DigitsValue(d)
    decreases |d|
  {
    if |d| > 0 {
      var z := "0" + d;
      assert z[..|z| - 1] == "0" + d[..|d| - 1];
      LeadingZero(d[..|d| - 1]);
    }
  }

  /** A run of digits without a leading zero is exactly how `str` writes its value. */
  lemma {:induction false} CanonicalDigits(c: string)
    requires |c| > 0 && AllDigits(c) && (|c| == 1 || c[0] != '0')
    ensures NatToString(DigitsValue(c)) == c
    decreases |c|
  {
    var n := DigitsValue(c);
    if |c| > 1 {
      var front := c[..|c| - 1];
      CanonicalDigits(front);
      var m := DigitsValue(front);
      assert n / 10 == m && n % 10 == DigitValue(c[|c| - 1]);
      assert c == front + [c[|c| - 1]];
    }
  }

  /**
    The sign and leading zeros as `int()` reads them: `+` changes nothing, `-` negates,
    and a leading zero changes nothing.
   */
  lemma SignAndZeros(d: string)
    requires |d| > 0 && AllDigits(d)
    ensures ParseInt(d).Some?
    ensures ParseInt("+" + d) == ParseInt(d)
    ensures ParseInt("-" + d) == Some(-ParseInt(d).value)
    ensures ParseInt("0" + d) == ParseInt(d)
  {
    assert ("+" + d)[1..] == d && ("-" + d)[1..] == d;
    LeadingZero(d);
  }

  /** A literal without sign or leading zero reads as the number `str` writes that way. */
  lemma CanonicalLiteral(c: string)
    requires |c| > 0 && AllDigits(c) && (|c| == 1 || c[0] != '0')
    ensures ParseInt(c) == Some(DigitsValue(c)) && IntToString(DigitsValue(c)) == c
  {
    CanonicalDigits(c);
    IntToStringRoundTrip(DigitsValue(c));
  }

  /** A run of digits holds no comma. */
  lemma DigitsHaveNoComma(s: string)
    requires AllDigits(s)
    ensures ',' !in s
  {
  }

  /** `str(n)` for a negative `n`: a minus sign, then the digits of `-n`. */
  lemma NegativeToString(n: int)
    requires n < 0
    ensures IsIntLiteral(IntToString(n))
    ensures ParseInt(IntToString(n)) == Some(n)
    ensures ',' !in IntToString(n) && |IntToString(n)| > 1
  {
    var s := IntToString(n);
    var digits := NatToString(-n);
    DigitsOfNat(-n);
    DigitsHaveNoComma(digits);
    assert s == "-" + digits;
    assert s[1..] == digits;
  }

  /** `int(str(n)) == n`, and `str(n)` never contains a comma. */
  lemma IntToStringRoundTrip(n: int)
    ensures IsIntLiteral(IntToString(n))
    ensures ParseInt(IntToString(n)) == Some(n)
    ensures ',' !in IntToString(n)
    ensures |IntToString(n)| == 1 <==> 0 <= n < 10
  {
    if n < 0 {
      NegativeToString(n);
    } else {
      var s := NatToString(n);
      DigitsOfNat(n);
      DigitsHaveNoComma(s);
      assert IsDigit(s[0]);
    }
  }
}

=== FILE: wrappers.dfy ===
/** The two failure-carrying shapes the rest of the model uses. */
module Wrappers {

  /** A value that may be absent; `None` stands for Python's `None` or an empty list. */
  datatype Option<+T> = None | Some(value: T)

  /** Either a value or the error that prevented computing it. */
  datatype Result<+T, +E> = Ok(value: T) | Err(error: E)
}
